=== FILE: README.md ===
# VirtualMem page replacement, modelled in Dafny

The program simulates demand paging. A user-level page table traps
accesses to virtual pages. Each fault goes to `page_fault_handler`, which
counts it and hands it to one of three replacement policies, chosen by name
on the command line: `rand_replace`, `fifo` or `lru`. Each policy handles a
fault in one of three ways:

- an unmapped page is read from disk into a free frame, or into a victim's
  frame after the victim is evicted and written back if dirty;
- a readable page is upgraded to read+write in the frame it already has;
- anything else is an error.

The run ends by printing three statistics: page faults, disk reads and disk
writes.

The model is one immutable record, `VmState.Sim`. It holds the frame table,
the page table (a map from page to frame and protection bits), the three
counters, the FIFO array with its `front`/`end` cursors, the LRU recency
list as a sequence of pages (bottom first, top last), and the history of
disk-adapter calls. Each policy is a pure function from a state and a
faulting page to `Ok(next state)` or `Err(failure)`. A failure is either an
explicit `exit(1)` or an outcome that C leaves undefined:

- a frame index out of range;
- a frame index of -1;
- a NULL dereference.

`Handler.Run` folds the handler over a sequence of faults.

Modules, in dependency order:

| file | module | contents |
|---|---|---|
| `prot.dfy` | `Prot` | protection bits |
| `vm_state.dfy` | `VmState` | the state and the page-table adapter |
| `frame_table.dfy` | `FrameTable` | `find_free_frame`, `remove_page`, table updates |
| `lru_list.dfy` | `LruList` | `push`, `find_in_stack`, `move_to_top`, `drop` |
| `policies.dfy` | `Policies` | the three policies |
| `handler.dfy` | `Handler` | `page_fault_handler` and runs |
| `invariants.dfy` | `Invariants` | the state invariant and its preservation |
| `properties.dfy` | `Properties` | per-branch behaviour of one fault |
| `scenarios.dfy` | `Scenarios` | concrete runs |

## Behaviour as written

The model follows the code in `main.c`, including these consequences:

- **FIFO never advances.** `end = (end) % nframes` leaves `end` where it is,
  and `front` never moves. So every load writes the same slot of
  `fifoArray`, and the victim is always the frame loaded last
  (`Properties.FifoEvictsLastLoaded`, `Scenarios.FifoFiveDistinctPages`).
- **LRU does not promote on write.** The read-to-write upgrade leaves the
  recency list alone, so the LRU victim is the least recently *loaded*
  page (`Scenarios.LruWriteDoesNotPromote`).
- **LRU with one frame crashes.** `drop` reads `bottom->next->previous`, so
  with one frame the first eviction dereferences NULL
  (`Properties.LruSingleFrameCrashes`).
- **Frame -1 is unreachable.** When no frame is free but the page is
  already in the list, LRU moves its node to the top and then uses `index`,
  still -1 from the failed free-frame search, as a frame (main.c:341,
  363-367). That branch is never taken while the list matches the resident
  set (`Properties.LruNeverNegativeIndex`).
- **Random reads the frame number.** Random passes the frame number, not
  the page, as the disk block to read (`Scenarios.RandomReadsFrameBlocks`).
- **Unknown names mean LRU.** Any policy name other than `rand` and `fifo`
  selects LRU.
- **Writable pages are upgraded again.** A fault on a page that is already
  read+write takes the "readable" branch and is upgraded again, because its
  bits include `PROT_READ`. Nothing in `main.c` treats this case as an
  error: the `bits & PROT_READ` tests at main.c:229, 285 and 351 catch it.

## Model

| member | source | states |
|---|---|---|
| VmState.SetEntry | main.c:239-241 | after setting a page's entry, reading it back gives the new frame and bits, and every other page reads as before |
| VmState.Init | main.c:430-440 | the start-up state is well formed and consistent, nothing is resident and all counters are zero |
| FrameTable.FindFreeFrame | main.c:74-83 | result is the lowest frame with zero bits, or -1 exactly when every frame is in use |
| FrameTable.UsedUpdate | main.c:85-94 | overwriting one frame entry changes the in-use count by exactly the difference between the old and new entry |
| FrameTable.NoFreeIffFull | main.c:74-83 | the free-frame search fails exactly when the number of frames in use equals the number of frames |
| FrameTable.RemovePage | main.c:85-94 | writes back (one more disk write, block = the victim page) exactly when the frame is writable; unmaps the victim page keeping the frame number; frees the frame, which keeps naming the stale page; no other frame or page entry changes; one fewer frame in use |
| FrameTable.RemovePagePreservesConsistency | main.c:85-94 | evicting an in-use frame keeps the two tables consistent, and the page it held is the only page that stops being resident |
| FrameTable.Install | main.c:239-241 | the page is recorded with the given bits in both tables at the given frame; no other page or frame entry changes |
| FrameTable.InstallFreshPreservesConsistency | main.c:213-228 | loading a non-resident page into a free frame keeps the tables consistent, adds exactly that page to the resident set and one frame to the in-use count |
| FrameTable.InstallUpgradePreservesConsistency | main.c:229-241 | upgrading a resident page in its own frame keeps the tables consistent and changes neither the resident set nor the in-use count |
| LruList.Push | main.c:106-116 | the page becomes the new top above the old list, unchanged; pushing onto the empty list gives a one-page list |
| LruList.FindInStack | main.c:119-131 | -1 exactly when the page is not in the list; otherwise the distance from the top to the topmost occurrence of the page |
| LruList.MoveToTop | main.c:134-162 | the chosen page becomes the top, the list is a permutation of the old one, and every other page keeps its relative order |
| LruList.Drop | main.c:177-194 | returns the bottom page's frame and removes exactly the bottom node; evicts that frame as `remove_page` does (write-back of the victim page exactly when writable, victim unmapped keeping the frame number, frame freed, no other frame or page entry changed); needs two nodes |
| LruList.DropPreservesConsistency | main.c:177-194 | when the bottom page is resident, dropping it keeps the tables consistent, makes exactly that page non-resident and frees one frame |
| Policies.RandReplace | main.c:197-243 | on success the page is resident, exactly one read is added when it was not resident and none when it was, and the FIFO and LRU structures are untouched |
| Policies.FifoReplace | main.c:245-298 | on success the page is resident, one read is added exactly when it was not resident, and the cursors and the LRU list do not change |
| Policies.LruReplace | main.c:301-372 | on success the page is resident, one read is added exactly when it was not resident, and the FIFO state is untouched |
| Policies.Replace | main.c:382-391 | the selected policy's fault makes the page resident and adds one read exactly when the page was not resident |
| Handler.Dispatch | main.c:382-391 | "rand" selects Random, "fifo" selects FIFO, and every other name selects LRU |
| Handler.PageFaultHandler | main.c:377-395 | each handled fault adds exactly one to the fault count and leaves the page resident |
| Handler.Run | main.c:377-395 | a successful run of n faults adds exactly n to the fault count and keeps the state well formed |
| Handler.RunConcat | main.c:377-395 | running two workloads back to back is the second run started from the first run's result, and a failure in the first ends the run |
| Invariants.InUseFramesDistinct | main.c:239-241 | under consistency, no two in-use frames hold the same page |
| Invariants.ResidentInRange | main.c:229-241 | a resident page maps to a frame in range that holds it, with readable bits |
| Invariants.RandStep | main.c:197-243 | every Random fault succeeds, keeps the tables consistent, and keeps reads, writes and frames in use in balance with the disk history |
| Invariants.FifoStep | main.c:245-298 | every FIFO fault succeeds under the cursor invariant and keeps consistency, the cursor invariant and the accounting |
| Invariants.FullListHasTwoNodes | main.c:317-337 | with two or more frames all in use, the recency list has at least two nodes, so `drop` is safe |
| Invariants.LruEvictStep | main.c:317-347 | an LRU eviction keeps consistency, keeps the list equal to the resident set with no duplicates, and keeps the accounting |
| Invariants.LruOneFrameEvictFails | main.c:177-190 | under the list invariant with one frame in use and the page not resident, the LRU fault ends in the NULL dereference in `drop` |
| Invariants.LruStep | main.c:301-372 | under the list invariant an LRU fault fails exactly when a single frame is full and the page is not resident, and then only with the NULL dereference; otherwise it keeps consistency, the list invariant and the accounting |
| Invariants.InitInv | main.c:430-440 | the start-up state satisfies the invariant of every policy |
| Invariants.HandlerPreservesInv | main.c:377-395 | a handled fault keeps the invariant of the policy the name selects; it fails exactly under LRU with a single full frame and a non-resident page, and then with the NULL dereference |
| Invariants.RunPreservesInv | main.c:377-395 | a run from a state satisfying the invariant ends in a state satisfying it whenever it completes; it always completes except under LRU with a single frame, where it can stop only at the NULL dereference |
| Invariants.RunCounterBounds | main.c:457-459 | from start-up, every run that completes (all of them except single-frame LRU runs that need an eviction) reports diskWrites <= diskReads <= pageFaults == number of faults |
| Properties.UnmappedFaultLoads | main.c:213-228 | under the policy's invariant (for LRU, with two frames or a free one), a fault on an unmapped page succeeds, reads exactly one block (the frame under Random, the page otherwise) and maps the page read-only in a frame in range that holds it, the first free frame when there is one |
| Properties.RandomVictim | main.c:216-227 | the random value matters only when no frame is free; then the page goes read-only into frame rnd mod nframes, in range; that frame's old page, and only it, stops being resident, written back first exactly when dirty; then block rnd mod nframes is read |
| Properties.ReadableFaultUpgrades | main.c:229-233 | a fault on a readable page upgrades it to read+write in the same frame, with no disk traffic and no change to the FIFO or LRU structures |
| Properties.UnreadableFaultExits | main.c:234-237 | a fault on a page whose non-zero bits lack read access ends the process, under every policy |
| Properties.LruNeverNegativeIndex | main.c:317-367 | under the list invariant, the LRU branch that goes on to use frame -1 is never taken |
| Properties.LruSingleFrameCrashes | main.c:186-190 | with one frame, the first LRU fault that needs an eviction dereferences NULL in `drop` |
| Properties.FifoEvictsLastLoaded | main.c:263-283 | after a FIFO load, the queue head names the frame just loaded, so the next eviction reuses that frame and evicts the page just loaded |
| Properties.LruEvictsBottom | main.c:317-347 | an LRU eviction removes exactly the bottom page, writes it back when dirty, puts the new page in its frame and on top of the list |
| Properties.LoadIntoFreeFrame | main.c:213-228 | with a free frame, any policy puts the page in the first free frame with one read and no eviction; only the policy's own structure records it |
| Properties.FifoEvictsHead | main.c:263-297 | a FIFO eviction uses the frame under `front`; exactly its page stops being resident, it is written back when dirty, and the new page takes that frame |
| Scenarios.FifoFiveDistinctPages | main.c:245-298 | with three frames, FIFO over pages 1 to 5 ends with {1, 2, 5} resident, five reads and no writes |
| Scenarios.LruWriteDoesNotPromote | main.c:301-372 | with three frames, LRU over pages 1, 2, 3, then 1 again, then 4, evicts page 1 (written back) and not page 2; the list ends as 2, 3, 4 |
| Scenarios.RandomReadsFrameBlocks | main.c:226-227 | with two free frames, Random's loads of any two distinct pages read disk blocks 0 and 1, the frame numbers, whatever the pages and random values are |

## Left out

- Page contents, `physmem` copying and the disk data are not modelled. A
  disk call is recorded as a counter change plus the block number it was
  given.
- The internals of `page_table.h` and `disk.h` (mmap, signal trapping, the
  disk file) are not part of this model. The page table is an abstract
  map. `PROT_READ` and `PROT_WRITE` are taken to be the usual flags 1
  and 2.
- `lrand48` is not modelled as a generator. Each fault carries the
  non-negative value it would return.
- The workloads in `program.h` (`sort_program`, `scan_program`,
  `focus_program`) are not part of this model. A run takes an arbitrary
  sequence of faulting pages instead.
- `main`'s glue is left out: argument parsing, allocation failures,
  printing, `print_stack`, and `free` of the tables and list nodes.
- VmState.Init: `frameTable` comes from `malloc`, but the model starts it
  as all-free (bits 0). The initial contents of `fifoArray` are a
  parameter.
- LruList.MoveToTop: models the sequence-level effect only. The
  link-level case for the bottom node (main.c:140-146) leaves
  `previous` links inconsistent. `lru` calls it only in the branch whose
  outcome is undefined anyway, so no policy in the model calls it, and that
  branch is unreachable under the list invariant.
- Counters are unbounded integers; the model does not overflow them.
- `nframes >= 1` is assumed by every operation (`VmState.WellFormed`).
  main.c:409 does not check it. With `nframes == 0`, unless `malloc(0)`
  returns NULL and `main` exits at main.c:436-439, the first fault is
  undefined under every policy: Random divides by zero (main.c:221), FIFO
  reads `fifoArray[0]` of an empty allocation (main.c:268), and LRU
  dereferences a NULL `bottom` in `drop` (main.c:179). A negative `nframes`
  makes the frame-table allocation at main.c:435 fail, so `main` exits at
  main.c:436-439 before any fault. The model has no state for either case.

=== FILE: frame_table.dfy ===
/** The frame table: free-frame search, eviction of one frame
    (`remove_page`) and installing a page into a frame. */
module FrameTable {
  import opened Prot
  import opened VmState

  /** `find_free_frame`: the lowest frame whose bits are 0, or -1 when
      every frame is in use. */
  function FindFreeFrame(ft: seq<FrameEntry>): (r: int)
    ensures -1 <= r < |ft|
    ensures r == -1 <==> forall i :: 0 <= i < |ft| ==> ft[i].bits != 0
    ensures 0 <= r ==> ft[r].bits == 0 && forall i :: 0 <= i < r ==> ft[i].bits != 0
  {
    if |ft| == 0 then -1
    else if ft[0].bits == 0 then 0
    else
      var r := FindFreeFrame(ft[1..]);
      if r < 0 then -1 else r + 1
  }

  /** Number of frames in use (non-zero bits). */
  function Used(ft: seq<FrameEntry>): (n: nat)
    ensures n <= |ft|
  {
    if |ft| == 0 then 0
    else Used(ft[..|ft| - 1]) + (if ft[|ft| - 1].bits != 0 then 1 else 0)
  }

  /** Overwriting one entry changes the in-use count by the difference
      between the old and the new entry. */
  lemma {:induction false} UsedUpdate(ft: seq<FrameEntry>, i: int, e: FrameEntry)
    requires 0 <= i < |ft|
    ensures Used(ft[i := e]) + (if ft[i].bits != 0 then 1 else 0)
         == Used(ft) + (if e.bits != 0 then 1 else 0)
    decreases |ft|
  {
    var n := |ft| - 1;
    if i < n {
      UsedUpdate(ft[..n], i, e);
      assert ft[i := e][..n] == ft[..n][i := e];
    } else {
      assert ft[i := e][..n] == ft[..n];
    }
  }

  /** No free frame exactly when every frame is in use. */
  lemma {:induction false} NoFreeIffFull(ft: seq<FrameEntry>)
    ensures FindFreeFrame(ft) == -1 <==> Used(ft) == |ft|
    decreases |ft|
  {
    if |ft| > 0 {
      var n := |ft| - 1;
      NoFreeIffFull(ft[..n]);
      assert FindFreeFrame(ft[..n]) == -1 <==> forall i :: 0 <= i < n ==> ft[..n][i].bits != 0;
      assert (forall i :: 0 <= i < n ==> ft[..n][i].bits != 0) <==> (forall i :: 0 <= i < n ==> ft[i].bits != 0);
    }
  }

  /** `remove_page(pt, f)`: write the frame back if it is dirty, then mark
      its page unmapped (keeping frame `f` in the entry) and free the frame. */
  function RemovePage(s: Sim, f: int): (r: Sim)
    requires WellFormed(s) && 0 <= f < s.nframes
    ensures WellFormed(r) && r.nframes == s.nframes
    ensures var victim := s.frameTable[f];
      && r.diskWrites == s.diskWrites + (if Writable(victim.bits) then 1 else 0)
      && r.disk == s.disk + (if Writable(victim.bits) then [DiskWrite(victim.page)] else [])
      && GetEntry(r.pageTable, victim.page) == PageEntry(f, 0)
      && (forall p :: p != victim.page ==> GetEntry(r.pageTable, p) == GetEntry(s.pageTable, p))
      && r.frameTable[f] == victim.(bits := 0)
      && (forall i :: 0 <= i < |s.frameTable| && i != f ==> r.frameTable[i] == s.frameTable[i])
      && Used(r.frameTable) + (if victim.bits != 0 then 1 else 0) == Used(s.frameTable)
    ensures r.pageFaults == s.pageFaults && r.diskReads == s.diskReads
    ensures r.fifoArray == s.fifoArray && r.front == s.front && r.end == s.end && r.stack == s.stack
  {
    var victim := s.frameTable[f];
    var s1 := if Writable(victim.bits)
      then s.(disk := s.disk + [DiskWrite(victim.page)], diskWrites := s.diskWrites + 1)
      else s;
    UsedUpdate(s.frameTable, f, victim.(bits := 0));
    s1.(pageTable := SetEntry(s.pageTable, victim.page, f, 0),
        frameTable := s.frameTable[f := victim.(bits := 0)])
  }

  /** Evicting an in-use frame keeps the two tables consistent, and the
      page it held is the one page that stops being resident. (On a free
      frame whose stale page is now resident elsewhere, `remove_page` would
      unmap that page; the handler never evicts a free frame.) */
  lemma RemovePagePreservesConsistency(s: Sim, f: int)
    requires WellFormed(s) && Consistent(s) && 0 <= f < s.nframes
    requires s.frameTable[f].bits != 0
    ensures Consistent(RemovePage(s, f))
    ensures forall p :: Resident(RemovePage(s, f), p) <==> Resident(s, p) && p != s.frameTable[f].page
  {
    var r := RemovePage(s, f);
    var v := s.frameTable[f].page;
    forall i | 0 <= i < |r.frameTable| && r.frameTable[i].bits != 0
      ensures GetEntry(r.pageTable, r.frameTable[i].page) == PageEntry(i, r.frameTable[i].bits)
    {
      assert i != f && r.frameTable[i] == s.frameTable[i];
      assert GetEntry(s.pageTable, v).frame == f;
    }
    forall p | GetEntry(r.pageTable, p).bits != 0
      ensures 0 <= GetEntry(r.pageTable, p).frame < |r.frameTable|
      ensures r.frameTable[GetEntry(r.pageTable, p).frame] == FrameEntry(p, GetEntry(r.pageTable, p).bits)
    {
      assert p != v;
    }
  }

  /** The last three lines of every fault branch: record `page` with
      protection `bits` in frame `index`, in both tables. */
  function Install(s: Sim, index: int, page: int, bits: Bits): (r: Sim)
    requires WellFormed(s) && 0 <= index < s.nframes
    ensures WellFormed(r) && r.nframes == s.nframes
    ensures GetEntry(r.pageTable, page) == PageEntry(index, bits)
    ensures r.frameTable[index] == FrameEntry(page, bits)
    ensures forall p :: p != page ==> GetEntry(r.pageTable, p) == GetEntry(s.pageTable, p)
    ensures forall i :: 0 <= i < |s.frameTable| && i != index ==> r.frameTable[i] == s.frameTable[i]
    ensures r.pageFaults == s.pageFaults
    ensures r.diskReads == s.diskReads && r.diskWrites == s.diskWrites && r.disk == s.disk
    ensures r.fifoArray == s.fifoArray && r.front == s.front && r.end == s.end && r.stack == s.stack
  {
    s.(pageTable := SetEntry(s.pageTable, page, index, bits),
       frameTable := s.frameTable[index := FrameEntry(page, bits)])
  }

  /** Loading a non-resident page into a free frame keeps the tables
      consistent, makes exactly that page resident, and takes one more frame. */
  lemma InstallFreshPreservesConsistency(s: Sim, index: int, page: int)
    requires WellFormed(s) && Consistent(s) && 0 <= index < s.nframes
    requires s.frameTable[index].bits == 0 && !Resident(s, page)
    ensures Consistent(Install(s, index, page, PROT_READ))
    ensures forall p :: Resident(Install(s, index, page, PROT_READ), p) <==> Resident(s, p) || p == page
    ensures Used(Install(s, index, page, PROT_READ).frameTable) == Used(s.frameTable) + 1
  {
    var r := Install(s, index, page, PROT_READ);
    UsedUpdate(s.frameTable, index, FrameEntry(page, PROT_READ));
    forall i | 0 <= i < |r.frameTable| && r.frameTable[i].bits != 0
      ensures GetEntry(r.pageTable, r.frameTable[i].page) == PageEntry(i, r.frameTable[i].bits)
    {
    }
  }

  /** Upgrading a resident page to read+write in the frame it already
      occupies keeps the tables consistent and changes neither residency
      nor the in-use count. */
  lemma InstallUpgradePreservesConsistency(s: Sim, page: int)
    requires WellFormed(s) && Consistent(s) && Resident(s, page)
    ensures var r := Install(s, GetEntry(s.pageTable, page).frame, page, PROT_READ | PROT_WRITE);
      && Consistent(r)
      && (forall p :: Resident(r, p) <==> Resident(s, p))
      && Used(r.frameTable) == Used(s.frameTable)
  {
    var f := GetEntry(s.pageTable, page).frame;
    var r := Install(s, f, page, PROT_READ | PROT_WRITE);
    UsedUpdate(s.frameTable, f, FrameEntry(page, PROT_READ | PROT_WRITE));
    assert s.frameTable[f].page == page;
    forall i | 0 <= i < |r.frameTable| && r.frameTable[i].bits != 0
      ensures GetEntry(r.pageTable, r.frameTable[i].page) == PageEntry(i, r.frameTable[i].bits)
    {
    }
  }
}

=== FILE: handler.dfy ===
/** `page_fault_handler`: count the fault, then hand it to the policy
    named on the command line. */
module Handler {
  import opened VmState
  import opened Policies

  /** The `strcmp` chain: "rand" and "fifo" select their policies and
      every other name falls through to LRU. */
  function Dispatch(alg: string): (pol: Policy)
    ensures pol == Rand <==> alg == "rand"
    ensures pol == Fifo <==> alg == "fifo"
    ensures pol == Lru <==> alg != "rand" && alg != "fifo"
  {
    if alg == "rand" then Rand
    else if alg == "fifo" then Fifo
    else Lru
  }

  /** Count one more page fault. */
  function Tick(s: Sim): (r: Sim)
    ensures r.pageFaults == s.pageFaults + 1
    ensures r.(pageFaults := s.pageFaults) == s
  {
    s.(pageFaults := s.pageFaults + 1)
  }

  function PageFaultHandler(s: Sim, alg: string, page: int, rnd: nat): (r: Result)
    requires WellFormed(s)
    ensures r.Ok? ==> WellFormed(r.sim) && r.sim.nframes == s.nframes
    ensures r.Ok? ==> r.sim.pageFaults == s.pageFaults + 1
    ensures r.Ok? ==> r.sim.diskReads == s.diskReads + (if Resident(s, page) then 0 else 1)
    ensures r.Ok? ==> Resident(r.sim, page)
  {
    Replace(Dispatch(alg), Tick(s), page, rnd)
  }

  /** A run: the faults raised by a workload, each a page and the value
      `lrand48` would return at that point. Stops at the first failure. */
  function Run(s: Sim, alg: string, faults: seq<(int, nat)>): (r: Result)
    requires WellFormed(s)
    ensures r.Ok? ==> WellFormed(r.sim) && r.sim.nframes == s.nframes
    ensures r.Ok? ==> r.sim.pageFaults == s.pageFaults + |faults|
    decreases |faults|
  {
    if |faults| == 0 then Ok(s)
    else
      match PageFaultHandler(s, alg, faults[0].0, faults[0].1)
      case Err(f) => Err(f)
      case Ok(s1) => Run(s1, alg, faults[1..])
  }

  /** A run over two workloads back to back is the second run started
      from where the first one stopped; a failure in the first ends it. */
  lemma {:induction false} RunConcat(s: Sim, alg: string, a: seq<(int, nat)>, b: seq<(int, nat)>)
    requires WellFormed(s)
    ensures Run(s, alg, a + b) == match Run(s, alg, a)
      case Err(f) => Err(f)
      case Ok(s1) => Run(s1, alg, b)
    decreases |a|
  {
    if |a| == 0 {
      assert a + b == b;
    } else {
      assert (a + b)[0] == a[0] && (a + b)[1..] == a[1..] + b;
      match PageFaultHandler(s, alg, a[0].0, a[0].1)
      case Err(f) =>
      case Ok(s1) => RunConcat(s1, alg, a[1..], b);
    }
  }

  /** `RunConcat` when the first run succeeds. */
  lemma RunThen(s: Sim, s1: Sim, alg: string, a: seq<(int, nat)>, b: seq<(int, nat)>)
    requires WellFormed(s) && Run(s, alg, a) == Ok(s1)
    ensures WellFormed(s1) && Run(s, alg, a + b) == Run(s1, alg, b)
  {
    RunConcat(s, alg, a, b);
  }
}

=== FILE: invariants.dfy ===
/** The invariants a run keeps, and their preservation by every fault. */
module Invariants {
  import opened Prot
  import opened VmState
  import opened FrameTable
  import opened LruList
  import opened Policies
  import opened Handler

  /** Number of disk reads recorded in a disk-call history. */
  function ReadCount(log: seq<DiskOp>): nat {
    if |log| == 0 then 0
    else ReadCount(log[..|log| - 1]) + (if log[|log| - 1].DiskRead? then 1 else 0)
  }

  /** Number of disk writes recorded in a disk-call history. */
  function WriteCount(log: seq<DiskOp>): nat {
    if |log| == 0 then 0
    else WriteCount(log[..|log| - 1]) + (if log[|log| - 1].DiskWrite? then 1 else 0)
  }

  lemma CountAppend(log: seq<DiskOp>, op: DiskOp)
    ensures ReadCount(log + [op]) == ReadCount(log) + (if op.DiskRead? then 1 else 0)
    ensures WriteCount(log + [op]) == WriteCount(log) + (if op.DiskWrite? then 1 else 0)
  {
    assert (log + [op])[..|log|] == log;
  }

  predicate NoDup(st: seq<int>) {
    forall i, j :: 0 <= i < j < |st| ==> st[i] != st[j]
  }

  /** The statistics agree with the disk-call history, and every write
      and every frame in use is paid for by an earlier read. */
  ghost predicate Counters(s: Sim) {
    && 0 <= s.diskWrites
    && s.diskWrites + Used(s.frameTable) <= s.diskReads <= s.pageFaults
    && s.diskReads == ReadCount(s.disk)
    && s.diskWrites == WriteCount(s.disk)
  }

  /** FIFO cursors never separate, and once a frame is in use the slot
      under them names a real frame. */
  ghost predicate FifoInv(s: Sim)
    requires WellFormed(s)
  {
    && s.front == s.end
    && (0 < Used(s.frameTable) ==> 0 <= s.fifoArray[s.front] < s.nframes)
  }

  /** The recency list holds each resident page exactly once and nothing else. */
  ghost predicate LruInv(s: Sim) {
    && NoDup(s.stack)
    && forall p :: p in s.stack <==> Resident(s, p)
  }

  ghost predicate Inv(s: Sim, pol: Policy) {
    && WellFormed(s)
    && Consistent(s)
    && Counters(s)
    && (pol == Fifo ==> FifoInv(s))
    && (pol == Lru ==> LruInv(s))
  }

  /** What one policy call does to the accounting: at most one read,
      writes never go down, and writes plus frames in use grow by no more
      than the reads did; the history records exactly these calls. */
  ghost predicate Accounted(s: Sim, r: Sim) {
    && s.diskReads <= r.diskReads <= s.diskReads + 1
    && s.diskWrites <= r.diskWrites
    && r.diskWrites + Used(r.frameTable) <= s.diskWrites + Used(s.frameTable) + (r.diskReads - s.diskReads)
    && ReadCount(r.disk) - ReadCount(s.disk) == r.diskReads - s.diskReads
    && WriteCount(r.disk) - WriteCount(s.disk) == r.diskWrites - s.diskWrites
  }

  /** Two in-use frames never hold the same page. */
  lemma InUseFramesDistinct(s: Sim, i: int, j: int)
    requires Consistent(s)
    requires 0 <= i < |s.frameTable| && 0 <= j < |s.frameTable| && i != j
    requires s.frameTable[i].bits != 0 && s.frameTable[j].bits != 0
    ensures s.frameTable[i].page != s.frameTable[j].page
  {
    assert GetEntry(s.pageTable, s.frameTable[i].page).frame == i;
    assert GetEntry(s.pageTable, s.frameTable[j].page).frame == j;
  }

  /** A resident page is found in range, in its frame. */
  lemma ResidentInRange(s: Sim, page: int)
    requires WellFormed(s) && Consistent(s) && Resident(s, page)
    ensures 0 <= GetEntry(s.pageTable, page).frame < s.nframes
    ensures s.frameTable[GetEntry(s.pageTable, page).frame].page == page
    ensures Readable(GetEntry(s.pageTable, page).bits)
  {
    var f := GetEntry(s.pageTable, page).frame;
    assert Installed(s.frameTable[f].bits);
  }

  /** Evicting an in-use frame: consistency, residency and the disk history. */
  lemma EvictStep(s: Sim, v: int)
    requires WellFormed(s) && Consistent(s) && 0 <= v < s.nframes && s.frameTable[v].bits != 0
    ensures var r := RemovePage(s, v);
      && Consistent(r)
      && (forall p :: Resident(r, p) <==> Resident(s, p) && p != s.frameTable[v].page)
      && ReadCount(r.disk) == ReadCount(s.disk)
      && WriteCount(r.disk) == WriteCount(s.disk) + (r.diskWrites - s.diskWrites)
  {
    RemovePagePreservesConsistency(s, v);
    if Writable(s.frameTable[v].bits) {
      CountAppend(s.disk, DiskWrite(s.frameTable[v].page));
    } else {
      assert RemovePage(s, v).disk == s.disk;
    }
  }

  /** Loading a non-resident page into a free frame. */
  lemma LoadStep(s: Sim, index: int, block: int, page: int)
    requires WellFormed(s) && Consistent(s) && 0 <= index < s.nframes
    requires s.frameTable[index].bits == 0 && !Resident(s, page)
    ensures var r := Load(s, index, block, page);
      && Consistent(r)
      && (forall p :: Resident(r, p) <==> Resident(s, p) || p == page)
      && Used(r.frameTable) == Used(s.frameTable) + 1
      && ReadCount(r.disk) == ReadCount(s.disk) + 1
      && WriteCount(r.disk) == WriteCount(s.disk)
  {
    var s1 := ReadFromDisk(s, block);
    assert s1.frameTable == s.frameTable && s1.pageTable == s.pageTable;
    InstallFreshPreservesConsistency(s1, index, page);
    CountAppend(s.disk, DiskRead(block));
  }

  /** Upgrading a resident page. */
  lemma UpgradeStep(s: Sim, page: int)
    requires WellFormed(s) && Consistent(s) && Resident(s, page)
    ensures Upgrade(s, page).Ok?
    ensures var r := Upgrade(s, page).sim;
      && Consistent(r)
      && (forall p :: Resident(r, p) <==> Resident(s, p))
      && Used(r.frameTable) == Used(s.frameTable)
  {
    ResidentInRange(s, page);
    InstallUpgradePreservesConsistency(s, page);
  }

  lemma RandStep(s: Sim, page: int, rnd: nat)
    requires WellFormed(s) && Consistent(s)
    ensures RandReplace(s, page, rnd).Ok?
    ensures Consistent(RandReplace(s, page, rnd).sim)
    ensures Accounted(s, RandReplace(s, page, rnd).sim)
  {
    if Resident(s, page) {
      ResidentInRange(s, page);
      UpgradeStep(s, page);
    } else {
      var free := FindFreeFrame(s.frameTable);
      if free < 0 {
        var v := rnd % s.nframes;
        EvictStep(s, v);
        LoadStep(RemovePage(s, v), v, v, page);
      } else {
        LoadStep(s, free, free, page);
      }
    }
  }

  lemma FifoStep(s: Sim, page: int)
    requires WellFormed(s) && Consistent(s) && FifoInv(s)
    ensures FifoReplace(s, page).Ok?
    ensures Consistent(FifoReplace(s, page).sim) && FifoInv(FifoReplace(s, page).sim)
    ensures Accounted(s, FifoReplace(s, page).sim)
  {
    if Resident(s, page) {
      ResidentInRange(s, page);
      UpgradeStep(s, page);
    } else {
      var free := FindFreeFrame(s.frameTable);
      if free < 0 {
        NoFreeIffFull(s.frameTable);
        var v := s.fifoArray[s.front];
        EvictStep(s, v);
        LoadStep(RemovePage(s, v), v, page, page);
      } else {
        LoadStep(s, free, page, page);
      }
    }
  }

  /** With two or more frames and the list invariant, a full frame table
      means the list has the two nodes `drop` needs. */
  lemma FullListHasTwoNodes(s: Sim)
    requires WellFormed(s) && Consistent(s) && LruInv(s) && 2 <= s.nframes
    requires FindFreeFrame(s.frameTable) == -1
    ensures 2 <= |s.stack|
  {
    var a := s.frameTable[0].page;
    var b := s.frameTable[1].page;
    InUseFramesDistinct(s, 0, 1);
    assert Resident(s, a) && Resident(s, b);
    assert a in s.stack && b in s.stack;
  }

  /** The shape of the LRU branch with no free frame once the list is
      known to hold two nodes and not the new page. */
  lemma LruEvictShape(s: Sim, page: int)
    requires WellFormed(s) && !Resident(s, page) && FindFreeFrame(s.frameTable) == -1
    requires page !in s.stack && 2 <= |s.stack|
    requires 0 <= GetEntry(s.pageTable, s.stack[0]).frame < s.nframes
    ensures var (s1, index) := Drop(s);
      LruReplace(s, page) == Ok(Load(s1, index, page, page).(stack := Push(s1.stack, page)))
  {
  }

  /** The LRU branch with no free frame: drop the bottom page, load the
      new one into its frame and push it. */
  lemma LruEvictStep(s: Sim, page: int)
    requires WellFormed(s) && Consistent(s) && LruInv(s) && 2 <= s.nframes
    requires !Resident(s, page) && FindFreeFrame(s.frameTable) == -1
    ensures LruReplace(s, page).Ok?
    ensures Consistent(LruReplace(s, page).sim) && LruInv(LruReplace(s, page).sim)
    ensures Accounted(s, LruReplace(s, page).sim)
  {
    assert page !in s.stack;
    FullListHasTwoNodes(s);
    assert Resident(s, s.stack[0]);
    DropPreservesConsistency(s);
    LruEvictShape(s, page);
    LruEvictKeeps(s, page);
    LruEvictList(s, page);
  }

  /** The state the branch builds keeps the tables and the accounting in order. */
  lemma LruEvictKeeps(s: Sim, page: int)
    requires WellFormed(s) && Consistent(s) && !Resident(s, page)
    requires 2 <= |s.stack| && Resident(s, s.stack[0])
    ensures 0 <= GetEntry(s.pageTable, s.stack[0]).frame < s.nframes
    ensures var (s1, index) := Drop(s);
      var r := Load(s1, index, page, page).(stack := Push(s1.stack, page));
      Consistent(r) && Accounted(s, r)
  {
    DropPreservesConsistency(s);
    var (s1, index) := Drop(s);
    EvictStep(s, index);
    LoadStep(s1, index, page, page);
  }

  /** Dropping the bottom of a duplicate-free list and pushing a page not
      in it: the result is duplicate-free and holds exactly the new page
      and the old pages other than the bottom one. */
  lemma DropPushList(st: seq<int>, page: int)
    requires NoDup(st) && 1 <= |st| && page !in st
    ensures NoDup(st[1..] + [page])
    ensures forall p :: p in st[1..] + [page] <==> p == page || (p in st && p != st[0])
  {
    forall p | p in st && p != st[0]
      ensures p in st[1..]
    {
      var k :| 0 <= k < |st| && st[k] == p;
      assert st[1..][k - 1] == p;
    }
  }

  /** ... and the list: the bottom page leaves it, the new page goes on top. */
  lemma LruEvictList(s: Sim, page: int)
    requires WellFormed(s) && Consistent(s) && LruInv(s) && !Resident(s, page)
    requires 2 <= |s.stack| && Resident(s, s.stack[0])
    ensures 0 <= GetEntry(s.pageTable, s.stack[0]).frame < s.nframes
    ensures var (s1, index) := Drop(s);
      LruInv(Load(s1, index, page, page).(stack := Push(s1.stack, page)))
  {
    DropPreservesConsistency(s);
    var (s1, index) := Drop(s);
    var r := Load(s1, index, page, page).(stack := Push(s1.stack, page));
    LoadStep(s1, index, page, page);
    assert r.stack == s.stack[1..] + [page];
    DropPushList(s.stack, page);
  }

  /** With a single frame in use, the list holds one node, so the eviction
      branch reaches `drop` with nothing above the bottom. */
  lemma LruOneFrameEvictFails(s: Sim, page: int)
    requires WellFormed(s) && Consistent(s) && LruInv(s) && s.nframes == 1
    requires !Resident(s, page) && FindFreeFrame(s.frameTable) < 0
    ensures LruReplace(s, page) == Err(Undefined(NullDereference))
  {
    assert page !in s.stack;
    if 2 <= |s.stack| {
      ResidentInRange(s, s.stack[0]);
      ResidentInRange(s, s.stack[1]);
      assert false;
    }
  }

  /** One LRU fault under the list invariant: it fails exactly when a
      single frame is full and the page is not resident (`drop` with one
      node), and otherwise keeps the tables, the list and the accounting. */
  lemma LruStep(s: Sim, page: int)
    requires WellFormed(s) && Consistent(s) && LruInv(s)
    ensures LruReplace(s, page).Err? <==>
      s.nframes == 1 && !Resident(s, page) && FindFreeFrame(s.frameTable) < 0
    ensures LruReplace(s, page).Err? ==> LruReplace(s, page).failure == Undefined(NullDereference)
    ensures LruReplace(s, page).Ok? ==>
      && Consistent(LruReplace(s, page).sim) && LruInv(LruReplace(s, page).sim)
      && Accounted(s, LruReplace(s, page).sim)
  {
    if Resident(s, page) {
      ResidentInRange(s, page);
      UpgradeStep(s, page);
    } else if FindFreeFrame(s.frameTable) < 0 {
      if s.nframes == 1 {
        LruOneFrameEvictFails(s, page);
      } else {
        LruEvictStep(s, page);
      }
    } else {
      assert page !in s.stack;
      LoadStep(s, FindFreeFrame(s.frameTable), page, page);
    }
  }

  lemma {:induction false} UsedNone(ft: seq<FrameEntry>)
    requires forall i :: 0 <= i < |ft| ==> ft[i].bits == 0
    ensures Used(ft) == 0
    decreases |ft|
  {
    if |ft| > 0 {
      UsedNone(ft[..|ft| - 1]);
    }
  }

  /** The state `main` sets up satisfies the invariant of every policy. */
  lemma InitInv(nframes: int, garbage: seq<int>, pol: Policy)
    requires 1 <= nframes && |garbage| == nframes
    ensures Inv(Init(nframes, garbage), pol)
  {
    UsedNone(Init(nframes, garbage).frameTable);
  }

  /** Counting the fault and then one accounted policy call keeps the
      counters' invariant. */
  lemma CountersStep(s: Sim, r: Sim)
    requires Counters(s)
    requires Accounted(Tick(s), r) && r.pageFaults == s.pageFaults + 1
    ensures Counters(r)
  {
  }

  lemma TickKeepsTables(s: Sim)
    ensures Tick(s).frameTable == s.frameTable && Tick(s).pageTable == s.pageTable
    ensures Tick(s).stack == s.stack && Tick(s).fifoArray == s.fifoArray && Tick(s).front == s.front
    ensures WellFormed(s) ==> WellFormed(Tick(s))
  {
  }

  lemma RandFaultPreservesInv(s: Sim, page: int, rnd: nat)
    requires Inv(s, Rand)
    ensures Replace(Rand, Tick(s), page, rnd).Ok?
    ensures Inv(Replace(Rand, Tick(s), page, rnd).sim, Rand)
  {
    TickKeepsTables(s);
    RandStep(Tick(s), page, rnd);
    CountersStep(s, RandReplace(Tick(s), page, rnd).sim);
  }

  lemma FifoFaultPreservesInv(s: Sim, page: int)
    requires Inv(s, Fifo)
    ensures Replace(Fifo, Tick(s), page, 0).Ok?
    ensures Inv(Replace(Fifo, Tick(s), page, 0).sim, Fifo)
  {
    TickKeepsTables(s);
    FifoStep(Tick(s), page);
    CountersStep(s, FifoReplace(Tick(s), page).sim);
  }

  lemma LruFaultPreservesInv(s: Sim, page: int)
    requires Inv(s, Lru)
    ensures Replace(Lru, Tick(s), page, 0).Err? <==>
      s.nframes == 1 && !Resident(s, page) && FindFreeFrame(s.frameTable) < 0
    ensures Replace(Lru, Tick(s), page, 0).Err? ==>
      Replace(Lru, Tick(s), page, 0).failure == Undefined(NullDereference)
    ensures Replace(Lru, Tick(s), page, 0).Ok? ==> Inv(Replace(Lru, Tick(s), page, 0).sim, Lru)
  {
    TickKeepsTables(s);
    var t := Tick(s);
    assert Replace(Lru, t, page, 0) == LruReplace(t, page);
    assert Resident(t, page) == Resident(s, page);
    LruStep(t, page);
    if LruReplace(t, page).Ok? {
      var r := LruReplace(t, page).sim;
      CountersStep(s, r);
      assert WellFormed(r) && Consistent(r) && Counters(r) && LruInv(r);
    }
  }

  /** Every fault keeps the invariant of the policy it is dispatched to.
      It fails only under LRU with a single frame, when that frame is in
      use and the page is not resident (see `LruOneFrameEvictFails`). */
  lemma HandlerPreservesInv(s: Sim, alg: string, page: int, rnd: nat)
    requires Inv(s, Dispatch(alg))
    ensures PageFaultHandler(s, alg, page, rnd).Err? <==>
      Dispatch(alg) == Lru && s.nframes == 1 && !Resident(s, page) && FindFreeFrame(s.frameTable) < 0
    ensures PageFaultHandler(s, alg, page, rnd).Err? ==>
      PageFaultHandler(s, alg, page, rnd).failure == Undefined(NullDereference)
    ensures PageFaultHandler(s, alg, page, rnd).Ok? ==>
      Inv(PageFaultHandler(s, alg, page, rnd).sim, Dispatch(alg))
  {
    match Dispatch(alg)
    case Rand => RandFaultPreservesInv(s, page, rnd);
    case Fifo =>
      FifoFaultPreservesInv(s, page);
      assert Replace(Fifo, Tick(s), page, rnd) == Replace(Fifo, Tick(s), page, 0);
    case Lru =>
      LruFaultPreservesInv(s, page);
      assert Replace(Lru, Tick(s), page, rnd) == Replace(Lru, Tick(s), page, 0);
  }

  /** A run from a state satisfying the invariant ends in one satisfying
      it, unless it stops at the single-frame LRU crash; with Random, FIFO,
      or LRU over two or more frames it never stops. */
  lemma {:induction false} RunPreservesInv(s: Sim, alg: string, faults: seq<(int, nat)>)
    requires Inv(s, Dispatch(alg))
    ensures (Dispatch(alg) == Lru ==> 2 <= s.nframes) ==> Run(s, alg, faults).Ok?
    ensures Run(s, alg, faults).Err? ==>
      Dispatch(alg) == Lru && s.nframes == 1 && Run(s, alg, faults).failure == Undefined(NullDereference)
    ensures Run(s, alg, faults).Ok? ==> Inv(Run(s, alg, faults).sim, Dispatch(alg))
    decreases |faults|
  {
    if |faults| > 0 {
      HandlerPreservesInv(s, alg, faults[0].0, faults[0].1);
      match PageFaultHandler(s, alg, faults[0].0, faults[0].1)
      case Err(f) =>
      case Ok(s1) => RunPreservesInv(s1, alg, faults[1..]);
    }
  }

  /** Over any run from start-up, every run that completes has
      disk writes <= disk reads <= page faults == number of faults. Every
      run completes except LRU over a single frame, which can stop only at
      the NULL dereference in `drop`. */
  lemma RunCounterBounds(nframes: int, garbage: seq<int>, alg: string, faults: seq<(int, nat)>)
    requires 1 <= nframes && |garbage| == nframes
    ensures (Dispatch(alg) == Lru ==> 2 <= nframes) ==> Run(Init(nframes, garbage), alg, faults).Ok?
    ensures Run(Init(nframes, garbage), alg, faults).Err? ==>
      Dispatch(alg) == Lru && nframes == 1
      && Run(Init(nframes, garbage), alg, faults).failure == Undefined(NullDereference)
    ensures Run(Init(nframes, garbage), alg, faults).Ok? ==>
      var r := Run(Init(nframes, garbage), alg, faults).sim;
      r.diskWrites <= r.diskReads <= r.pageFaults == |faults|
  {
    InitInv(nframes, garbage, Dispatch(alg));
    RunPreservesInv(Init(nframes, garbage), alg, faults);
  }
}

=== FILE: lru_list.dfy ===
/** The LRU recency list. The doubly-linked list from `bottom` to `top`
    is a sequence of pages: index 0 is the bottom (least recently used),
    the last index is the top (most recently used). */
module LruList {
  import opened Prot
  import opened VmState
  import opened FrameTable

  /** `push`: the page becomes the new top. */
  function Push(st: seq<int>, page: int): (r: seq<int>)
    ensures |r| == |st| + 1 && r[..|st|] == st && r[|st|] == page
    ensures st == [] ==> r == [page]
    ensures multiset(r) == multiset(st) + multiset{page}
  {
    st + [page]
  }

  /** `find_in_stack`: walking from the top along `previous` links, the
      number of steps to the first node holding `page`, or -1. */
  function FindInStack(st: seq<int>, page: int): (r: int)
    ensures -1 <= r < |st|
    ensures r == -1 <==> page !in st
    ensures 0 <= r ==> st[|st| - 1 - r] == page
    ensures 0 <= r ==> forall j :: |st| - 1 - r < j < |st| ==> st[j] != page
  {
    if |st| == 0 then -1
    else if st[|st| - 1] == page then 0
    else
      var r := FindInStack(st[..|st| - 1], page);
      if r < 0 then -1 else r + 1
  }

  /** `move_to_top` on the node at position `i`: that page becomes the top
      and every other page keeps its relative order. `lru` calls it only in
      the branch whose outcome is undefined, so no policy here calls it. */
  function MoveToTop(st: seq<int>, i: int): (r: seq<int>)
    requires 0 <= i < |st|
    ensures |r| == |st| && r[|r| - 1] == st[i]
    ensures multiset(r) == multiset(st)
    ensures i == |st| - 1 ==> r == st
    ensures forall j :: 0 <= j < |st| - 1 ==> r[j] == st[if j < i then j else j + 1]
  {
    if i == |st| - 1 then st
    else
      assert st == st[..i] + [st[i]] + st[i + 1..];
      st[..i] + st[i + 1..] + [st[i]]
  }

  /** `drop`: evict the frame of the bottom page through `remove_page`,
      unlink the bottom node and return that frame. The C code reaches
      `bottom->next->previous`, so the list must have two nodes. */
  function Drop(s: Sim): (r: (Sim, int))
    requires WellFormed(s) && 2 <= |s.stack|
    requires 0 <= GetEntry(s.pageTable, s.stack[0]).frame < s.nframes
    ensures WellFormed(r.0) && r.0.nframes == s.nframes
    ensures r.1 == GetEntry(s.pageTable, s.stack[0]).frame
    ensures r.0.stack == s.stack[1..]
    ensures var victim := s.frameTable[r.1];
      && r.0.diskWrites == s.diskWrites + (if Writable(victim.bits) then 1 else 0)
      && r.0.disk == s.disk + (if Writable(victim.bits) then [DiskWrite(victim.page)] else [])
      && GetEntry(r.0.pageTable, victim.page) == PageEntry(r.1, 0)
      && (forall p :: p != victim.page ==> GetEntry(r.0.pageTable, p) == GetEntry(s.pageTable, p))
      && r.0.frameTable[r.1].bits == 0
      && (forall i :: 0 <= i < |s.frameTable| && i != r.1 ==> r.0.frameTable[i] == s.frameTable[i])
      && Used(r.0.frameTable) + (if victim.bits != 0 then 1 else 0) == Used(s.frameTable)
    ensures r.0.pageFaults == s.pageFaults && r.0.diskReads == s.diskReads
    ensures r.0.fifoArray == s.fifoArray && r.0.front == s.front && r.0.end == s.end
  {
    var frame := GetEntry(s.pageTable, s.stack[0]).frame;
    (RemovePage(s, frame).(stack := s.stack[1..]), frame)
  }

  /** When the bottom page is resident, dropping it keeps the tables
      consistent and makes exactly that page non-resident, freeing one frame. */
  lemma DropPreservesConsistency(s: Sim)
    requires WellFormed(s) && Consistent(s) && 2 <= |s.stack| && Resident(s, s.stack[0])
    ensures 0 <= GetEntry(s.pageTable, s.stack[0]).frame < s.nframes
    ensures var r := Drop(s).0;
      && Consistent(r)
      && (forall p :: Resident(r, p) <==> Resident(s, p) && p != s.stack[0])
      && Used(r.frameTable) + 1 == Used(s.frameTable)
  {
    RemovePagePreservesConsistency(s, GetEntry(s.pageTable, s.stack[0]).frame);
  }
}

=== FILE: policies.dfy ===
/** The three replacement policies. Each is one fault transition:
    `rand_replace`, `fifo` and `lru` of the C program, with the random
    victim drawn from an oracle argument instead of `lrand48`. */
module Policies {
  import opened Prot
  import opened VmState
  import opened FrameTable
  import opened LruList

  datatype Policy = Rand | Fifo | Lru

  /** `disk_read(disk, block, ...)` followed by `diskReads++`; the data
      transfer itself is not modelled. */
  function ReadFromDisk(s: Sim, block: int): (r: Sim)
    ensures r.disk == s.disk + [DiskRead(block)] && r.diskReads == s.diskReads + 1
    ensures r.(disk := s.disk, diskReads := s.diskReads) == s
  {
    s.(disk := s.disk + [DiskRead(block)], diskReads := s.diskReads + 1)
  }

  /** Read `page` from disk block `block` into frame `index` and install
      it read-only: the tail of every "unmapped" branch. */
  function Load(s: Sim, index: int, block: int, page: int): (r: Sim)
    requires WellFormed(s) && 0 <= index < s.nframes
    ensures WellFormed(r) && r.nframes == s.nframes && r.pageFaults == s.pageFaults
    ensures r.diskReads == s.diskReads + 1 && r.diskWrites == s.diskWrites
    ensures r.disk == s.disk + [DiskRead(block)]
    ensures r.fifoArray == s.fifoArray && r.front == s.front && r.end == s.end && r.stack == s.stack
    ensures GetEntry(r.pageTable, page) == PageEntry(index, PROT_READ)
    ensures r.frameTable[index] == FrameEntry(page, PROT_READ)
    ensures forall p :: p != page ==> GetEntry(r.pageTable, p) == GetEntry(s.pageTable, p)
    ensures forall i :: 0 <= i < |s.frameTable| && i != index ==> r.frameTable[i] == s.frameTable[i]
  {
    Install(ReadFromDisk(s, block), index, page, PROT_READ)
  }

  /** The "readable" branch shared by all policies: grant write access in
      the frame the page already has. */
  function Upgrade(s: Sim, page: int): (r: Result)
    requires WellFormed(s)
    ensures r.Ok? <==> 0 <= GetEntry(s.pageTable, page).frame < s.nframes
    ensures r.Err? ==> r == Err(Undefined(FrameOutOfRange))
    ensures r.Ok? ==> WellFormed(r.sim) && r.sim.nframes == s.nframes && r.sim.pageFaults == s.pageFaults
    ensures r.Ok? ==> r.sim.diskReads == s.diskReads && r.sim.diskWrites == s.diskWrites && r.sim.disk == s.disk
    ensures r.Ok? ==> r.sim.fifoArray == s.fifoArray && r.sim.front == s.front && r.sim.end == s.end && r.sim.stack == s.stack
    ensures r.Ok? ==> GetEntry(r.sim.pageTable, page) == PageEntry(GetEntry(s.pageTable, page).frame, PROT_READ | PROT_WRITE)
    ensures r.Ok? ==> r.sim.frameTable[GetEntry(s.pageTable, page).frame] == FrameEntry(page, PROT_READ | PROT_WRITE)
    ensures r.Ok? ==> forall p :: p != page ==> GetEntry(r.sim.pageTable, p) == GetEntry(s.pageTable, p)
    ensures r.Ok? ==> forall i :: 0 <= i < |s.frameTable| && i != GetEntry(s.pageTable, page).frame ==>
      r.sim.frameTable[i] == s.frameTable[i]
  {
    var f := GetEntry(s.pageTable, page).frame;
    if 0 <= f < s.nframes then Ok(Install(s, f, page, PROT_READ | PROT_WRITE))
    else Err(Undefined(FrameOutOfRange))
  }

  /** `rand_replace`. `rnd` stands for the value `lrand48` returns
      (non-negative, so C's `%` and Dafny's agree). Note that the disk read
      uses the frame number as the block, not the page. */
  function RandReplace(s: Sim, page: int, rnd: nat): (r: Result)
    requires WellFormed(s)
    ensures r.Ok? ==> WellFormed(r.sim) && r.sim.nframes == s.nframes && r.sim.pageFaults == s.pageFaults
    ensures r.Ok? ==> r.sim.diskReads == s.diskReads + (if Resident(s, page) then 0 else 1)
    ensures r.Ok? ==> Resident(r.sim, page)
    ensures r.Ok? ==> r.sim.fifoArray == s.fifoArray && r.sim.front == s.front && r.sim.end == s.end && r.sim.stack == s.stack
  {
    var e := GetEntry(s.pageTable, page);
    if e.bits == 0 then
      var free := FindFreeFrame(s.frameTable);
      var index := if free < 0 then rnd % s.nframes else free;
      var s1 := if free < 0 then RemovePage(s, index) else s;
      Ok(Load(s1, index, index, page))
    else if Readable(e.bits) then
      Upgrade(s, page)
    else
      Err(Exit("ERROR ON PAGE FAULT"))
  }

  /** Record the frame in the FIFO slot under `end`. The C code then sets
      `end` to itself modulo `nframes`, so the cursor stays where it is. */
  function Enqueue(s: Sim, index: int): (r: Sim)
    requires WellFormed(s)
    ensures WellFormed(r) && r.fifoArray == s.fifoArray[s.end := index]
    ensures r.end == s.end
    ensures r.(fifoArray := s.fifoArray) == s
  {
    s.(fifoArray := s.fifoArray[s.end := index], end := s.end % s.nframes)
  }

  /** `fifo`. As written, `end = (end) % nframes` leaves `end` where it
      was and `front` is never moved, so every load overwrites the same
      slot of `fifoArray` and the victim is the frame loaded last. */
  function FifoReplace(s: Sim, page: int): (r: Result)
    requires WellFormed(s)
    ensures r.Ok? ==> WellFormed(r.sim) && r.sim.nframes == s.nframes && r.sim.pageFaults == s.pageFaults
    ensures r.Ok? ==> r.sim.diskReads == s.diskReads + (if Resident(s, page) then 0 else 1)
    ensures r.Ok? ==> Resident(r.sim, page)
    ensures r.Ok? ==> r.sim.front == s.front && r.sim.end == s.end && r.sim.stack == s.stack
  {
    var e := GetEntry(s.pageTable, page);
    if e.bits == 0 then
      var free := FindFreeFrame(s.frameTable);
      if free < 0 && s.front != s.end then
        Err(Exit("Error in FIFO\n"))
      else if free < 0 && !(0 <= s.fifoArray[s.front] < s.nframes) then
        Err(Undefined(FrameOutOfRange))
      else
        var index := if free < 0 then s.fifoArray[s.front] else free;
        var s1 := if free < 0 then RemovePage(s, index) else s;
        Ok(Enqueue(Load(s1, index, page, page), index))
    else if Readable(e.bits) then
      Upgrade(s, page)
    else
      Err(Exit("ERROR in FIFO"))
  }

  /** `lru`. A new page goes on top of the recency list; with no free
      frame the bottom page is dropped first. When no frame is free but the
      page is already in the list, the C code moves its node to the top and
      then uses `index`, still -1 from the failed free-frame search, as a
      frame: it reads into `physmem[-PAGE_SIZE]` and writes `frameTable[-1]`,
      so that outcome is undefined.
      The read-to-write upgrade leaves the list as it is. */
  function LruReplace(s: Sim, page: int): (r: Result)
    requires WellFormed(s)
    ensures r.Ok? ==> WellFormed(r.sim) && r.sim.nframes == s.nframes && r.sim.pageFaults == s.pageFaults
    ensures r.Ok? ==> r.sim.diskReads == s.diskReads + (if Resident(s, page) then 0 else 1)
    ensures r.Ok? ==> Resident(r.sim, page)
    ensures r.Ok? ==> r.sim.fifoArray == s.fifoArray && r.sim.front == s.front && r.sim.end == s.end
  {
    var e := GetEntry(s.pageTable, page);
    if e.bits == 0 then
      var free := FindFreeFrame(s.frameTable);
      if 0 <= free then
        Ok(Load(s, free, page, page).(stack := Push(s.stack, page)))
      else if 0 <= FindInStack(s.stack, page) then
        Err(Undefined(NegativeFrameIndex))
      else if |s.stack| < 2 then
        Err(Undefined(NullDereference))
      else if !(0 <= GetEntry(s.pageTable, s.stack[0]).frame < s.nframes) then
        Err(Undefined(FrameOutOfRange))
      else
        var (s1, index) := Drop(s);
        Ok(Load(s1, index, page, page).(stack := Push(s1.stack, page)))
    else if Readable(e.bits) then
      Upgrade(s, page)
    else
      Err(Exit("ERROR in LRU\n"))
  }

  /** The policy selected for a run, applied to one fault. */
  function Replace(pol: Policy, s: Sim, page: int, rnd: nat): (r: Result)
    requires WellFormed(s)
    ensures r.Ok? ==> WellFormed(r.sim) && r.sim.nframes == s.nframes && r.sim.pageFaults == s.pageFaults
    ensures r.Ok? ==> r.sim.diskReads == s.diskReads + (if Resident(s, page) then 0 else 1)
    ensures r.Ok? ==> Resident(r.sim, page)
  {
    match pol
    case Rand => RandReplace(s, page, rnd)
    case Fifo => FifoReplace(s, page)
    case Lru => LruReplace(s, page)
  }
}

=== FILE: properties.dfy ===
/** What one fault does, branch by branch, under each policy; and the
    consequences of the code's quirks. */
module Properties {
  import opened Prot
  import opened VmState
  import opened FrameTable
  import opened LruList
  import opened Policies
  import opened Handler
  import opened Invariants

  /** A fault on an unmapped page, under any policy (for LRU, unless a
      single frame is full: see `LruSingleFrameCrashes`): it succeeds,
      reads the disk once (block = frame under Random, page otherwise), and
      leaves the page read-only in a frame that both tables agree on; that
      frame is the first free one when there is one. */
  lemma UnmappedFaultLoads(pol: Policy, s: Sim, page: int, rnd: nat)
    requires Inv(s, pol) && (pol == Lru ==> 2 <= s.nframes || 0 <= FindFreeFrame(s.frameTable))
    requires !Resident(s, page)
    ensures Replace(pol, s, page, rnd).Ok?
    ensures var r := Replace(pol, s, page, rnd).sim;
      var k := GetEntry(r.pageTable, page).frame;
      && 0 <= k < s.nframes
      && GetEntry(r.pageTable, page).bits == PROT_READ
      && r.frameTable[k] == FrameEntry(page, PROT_READ)
      && r.diskReads == s.diskReads + 1
      && |r.disk| > 0 && r.disk[|r.disk| - 1] == DiskRead(if pol == Rand then k else page)
      && (0 <= FindFreeFrame(s.frameTable) ==> k == FindFreeFrame(s.frameTable))
  {
    match pol
    case Rand => RandStep(s, page, rnd);
    case Fifo => FifoStep(s, page);
    case Lru => LruStep(s, page);
  }

  /** Random draws a victim only when no frame is free: otherwise the
      random value does not matter at all. When it does matter, the page
      goes to frame `rnd % nframes`, in range; the page that frame held, and
      only it, stops being resident, written back first if it was dirty,
      and the frame number is the block read. */
  lemma RandomVictim(s: Sim, page: int, rnd1: nat, rnd2: nat)
    requires WellFormed(s) && Consistent(s) && !Resident(s, page)
    ensures 0 <= FindFreeFrame(s.frameTable) ==> RandReplace(s, page, rnd1) == RandReplace(s, page, rnd2)
    ensures FindFreeFrame(s.frameTable) < 0 ==>
      var r := RandReplace(s, page, rnd1);
      var v := rnd1 % s.nframes;
      && 0 <= v < s.nframes
      && var gone := s.frameTable[v];
      && r.Ok? && GetEntry(r.sim.pageTable, page) == PageEntry(v, PROT_READ)
      && (forall p :: Resident(r.sim, p) <==> p == page || (Resident(s, p) && p != gone.page))
      && r.sim.disk == s.disk + (if Writable(gone.bits) then [DiskWrite(gone.page)] else []) + [DiskRead(v)]
      && r.sim.diskWrites == s.diskWrites + (if Writable(gone.bits) then 1 else 0)
      && r.sim.diskReads == s.diskReads + 1
  {
    if FindFreeFrame(s.frameTable) < 0 {
      NoFreeIffFull(s.frameTable);
      var v := rnd1 % s.nframes;
      EvictStep(s, v);
      LoadStep(RemovePage(s, v), v, v, page);
    }
  }

  /** A fault on a readable page grants write access in the same frame,
      with no disk traffic and no change to the FIFO queue or LRU list. */
  lemma ReadableFaultUpgrades(pol: Policy, s: Sim, page: int, rnd: nat)
    requires WellFormed(s) && Readable(GetEntry(s.pageTable, page).bits)
    requires 0 <= GetEntry(s.pageTable, page).frame < s.nframes
    ensures Replace(pol, s, page, rnd).Ok?
    ensures var r := Replace(pol, s, page, rnd).sim;
      var f := GetEntry(s.pageTable, page).frame;
      && GetEntry(r.pageTable, page) == PageEntry(f, PROT_READ | PROT_WRITE)
      && r.frameTable[f] == FrameEntry(page, PROT_READ | PROT_WRITE)
      && r.diskReads == s.diskReads && r.diskWrites == s.diskWrites && r.disk == s.disk
      && r.fifoArray == s.fifoArray && r.front == s.front && r.end == s.end
      && r.stack == s.stack
  {
    assert PROT_WRITE | PROT_READ == PROT_READ | PROT_WRITE;
  }

  /** A fault on a page whose bits are set but lack read access ends the
      process under every policy. */
  lemma UnreadableFaultExits(pol: Policy, s: Sim, page: int, rnd: nat)
    requires WellFormed(s)
    requires GetEntry(s.pageTable, page).bits != 0 && !Readable(GetEntry(s.pageTable, page).bits)
    ensures Replace(pol, s, page, rnd).Err? && Replace(pol, s, page, rnd).failure.Exit?
  {
  }

  /** Under the list invariant the LRU "already in the list" branch, the
      one that goes on to use frame -1, is never taken. */
  lemma LruNeverNegativeIndex(s: Sim, page: int)
    requires Inv(s, Lru)
    ensures LruReplace(s, page) != Err(Undefined(NegativeFrameIndex))
  {
    if !Resident(s, page) {
      assert page !in s.stack;
    }
  }

  /** With a single frame, the first LRU fault that needs an eviction
      reaches `drop` with one node and dereferences NULL. */
  lemma LruSingleFrameCrashes(s: Sim, page: int)
    requires Inv(s, Lru) && s.nframes == 1
    requires s.frameTable[0].bits != 0 && !Resident(s, page)
    ensures LruReplace(s, page) == Err(Undefined(NullDereference))
  {
    LruOneFrameEvictFails(s, page);
  }

  /** FIFO as written: the queue head is always the frame loaded last, so
      when the next load needs a victim it reuses that very frame and
      evicts the page just loaded. */
  lemma FifoEvictsLastLoaded(s: Sim, p: int, q: int)
    requires WellFormed(s) && Consistent(s) && FifoInv(s) && !Resident(s, p) && q != p
    ensures FifoReplace(s, p).Ok?
    ensures var s1 := FifoReplace(s, p).sim;
      var f := GetEntry(s1.pageTable, p).frame;
      && s1.fifoArray[s1.front] == f
      && (!Resident(s1, q) && FindFreeFrame(s1.frameTable) < 0 ==>
            && FifoReplace(s1, q).Ok?
            && GetEntry(FifoReplace(s1, q).sim.pageTable, q).frame == f
            && !Resident(FifoReplace(s1, q).sim, p))
  {
    FifoStep(s, p);
    var s1 := FifoReplace(s, p).sim;
    if !Resident(s1, q) && FindFreeFrame(s1.frameTable) < 0 {
      NoFreeIffFull(s1.frameTable);
      var f := GetEntry(s1.pageTable, p).frame;
      EvictStep(s1, f);
      LoadStep(RemovePage(s1, f), f, q, q);
    }
  }

  /** LRU with no free frame: the bottom page, and only it, is evicted
      (written back if dirty), the new page takes its frame and becomes
      the top of the list. */
  lemma LruEvictsBottom(s: Sim, page: int)
    requires WellFormed(s) && Consistent(s) && LruInv(s) && 2 <= s.nframes
    requires !Resident(s, page) && FindFreeFrame(s.frameTable) < 0
    ensures 2 <= |s.stack| && LruReplace(s, page).Ok?
    ensures var r := LruReplace(s, page).sim;
      var b := s.stack[0];
      var e := GetEntry(s.pageTable, b);
      && r.stack == s.stack[1..] + [page]
      && GetEntry(r.pageTable, page) == PageEntry(e.frame, PROT_READ)
      && (forall p :: Resident(r, p) <==> p == page || (Resident(s, p) && p != b))
      && r.disk == s.disk + (if Writable(e.bits) then [DiskWrite(b)] else []) + [DiskRead(page)]
      && r.diskWrites == s.diskWrites + (if Writable(e.bits) then 1 else 0)
      && r.diskReads == s.diskReads + 1
  {
    FullListHasTwoNodes(s);
    LruEvictStep(s, page);
    var b := s.stack[0];
    assert Resident(s, b);
    DropPreservesConsistency(s);
    var (s1, index) := Drop(s);
    ResidentInRange(s, b);
    LoadStep(s1, index, page, page);
  }

  /** A fault on an unmapped page while a frame is free, under any policy
      and with no invariant assumed: the page goes into the first free
      frame, nothing is evicted, one read is issued, and only the policy's
      own structure records the new frame (FIFO slot at `end`, LRU top). */
  lemma LoadIntoFreeFrame(pol: Policy, s: Sim, page: int, rnd: nat)
    requires WellFormed(s) && !Resident(s, page) && 0 <= FindFreeFrame(s.frameTable)
    ensures Replace(pol, s, page, rnd).Ok?
    ensures var r := Replace(pol, s, page, rnd).sim;
      var f := FindFreeFrame(s.frameTable);
      && r.frameTable == s.frameTable[f := FrameEntry(page, PROT_READ)]
      && r.pageTable == SetEntry(s.pageTable, page, f, PROT_READ)
      && r.disk == s.disk + [DiskRead(if pol == Rand then f else page)]
      && r.diskReads == s.diskReads + 1 && r.diskWrites == s.diskWrites
      && r.stack == (if pol == Lru then s.stack + [page] else s.stack)
      && r.fifoArray == (if pol == Fifo then s.fifoArray[s.end := f] else s.fifoArray)
      && r.front == s.front && r.end == s.end
  {
  }

  /** FIFO with no free frame: the frame under the `front` cursor is the
      victim; its page, and only it, stops being resident (written back if
      dirty), the new page takes that frame, and the slot keeps naming it. */
  lemma FifoEvictsHead(s: Sim, page: int)
    requires WellFormed(s) && Consistent(s) && FifoInv(s)
    requires !Resident(s, page) && FindFreeFrame(s.frameTable) < 0
    ensures 0 <= s.fifoArray[s.front] < s.nframes && FifoReplace(s, page).Ok?
    ensures var r := FifoReplace(s, page).sim;
      var v := s.fifoArray[s.front];
      var gone := s.frameTable[v];
      && GetEntry(r.pageTable, page) == PageEntry(v, PROT_READ)
      && r.frameTable == s.frameTable[v := FrameEntry(page, PROT_READ)]
      && (forall p :: Resident(r, p) <==> p == page || (Resident(s, p) && p != gone.page))
      && r.fifoArray[r.front] == v && r.front == s.front && r.end == s.end
      && r.disk == s.disk + (if Writable(gone.bits) then [DiskWrite(gone.page)] else []) + [DiskRead(page)]
      && r.diskWrites == s.diskWrites + (if Writable(gone.bits) then 1 else 0)
      && r.diskReads == s.diskReads + 1
  {
    NoFreeIffFull(s.frameTable);
    var v := s.fifoArray[s.front];
    var gone := s.frameTable[v];
    var s1 := RemovePage(s, v);
    var s2 := Load(s1, v, page, page);
    assert FifoReplace(s, page) == Ok(Enqueue(s2, v));
    var r := Enqueue(s2, v);
    assert r.frameTable == s.frameTable[v := FrameEntry(page, PROT_READ)] by {
      assert s1.frameTable == s.frameTable[v := FrameEntry(gone.page, 0)];
    }
    assert forall p :: Resident(r, p) <==> p == page || (Resident(s, p) && p != gone.page) by {
      EvictStep(s, v);
      LoadStep(s1, v, page, page);
    }
  }
}

=== FILE: prot.dfy ===
/** Protection bits as the page-table adapter uses them.

    The adapter's header is not part of this model; the values below are the
    usual <sys/mman.h> ones. Every proof only relies on the two flags being
    distinct, non-zero, single bits. */
module Prot {

  /** A C `int` used as a bit set. */
  type Bits = bv32

  const PROT_READ: Bits := 1
  const PROT_WRITE: Bits := 2

  predicate Readable(b: Bits) {
    b & PROT_READ != 0
  }

  /** The "dirty bit": a page that was granted write access since it was loaded. */
  predicate Writable(b: Bits) {
    b & PROT_WRITE != 0
  }

  /** The only protections the fault handler ever stores: none, read, read+write. */
  predicate Installed(b: Bits) {
    b == 0 || b == PROT_READ || b == PROT_READ | PROT_WRITE
  }
}

=== FILE: scenarios.dfy ===
/** Concrete runs, worked out on the model from the general lemmas. */
module Scenarios {
  import opened Prot
  import opened VmState
  import opened FrameTable
  import opened Policies
  import opened Handler
  import opened Invariants
  import opened Properties

  /** One fault on an unmapped page while a frame is free, seen through
      the handler, whatever `lrand48` would return. */
  lemma FreeStep(s: Sim, alg: string, page: int, rnd: nat) returns (r: Sim)
    requires WellFormed(s) && !Resident(s, page) && 0 <= FindFreeFrame(s.frameTable)
    ensures PageFaultHandler(s, alg, page, rnd) == Ok(r)
    ensures var f := FindFreeFrame(s.frameTable);
      && r.nframes == s.nframes
      && r.frameTable == s.frameTable[f := FrameEntry(page, PROT_READ)]
      && r.pageTable == SetEntry(s.pageTable, page, f, PROT_READ)
      && r.pageFaults == s.pageFaults + 1 && r.diskReads == s.diskReads + 1 && r.diskWrites == s.diskWrites
      && r.disk == s.disk + [DiskRead(if Dispatch(alg) == Rand then f else page)]
      && r.stack == (if Dispatch(alg) == Lru then s.stack + [page] else s.stack)
      && r.fifoArray == (if Dispatch(alg) == Fifo then s.fifoArray[s.end := f] else s.fifoArray)
      && r.front == s.front && r.end == s.end
  {
    TickKeepsTables(s);
    LoadIntoFreeFrame(Dispatch(alg), Tick(s), page, rnd);
    r := PageFaultHandler(s, alg, page, rnd).sim;
  }

  /** `FreeStep` under the name "lru". */
  lemma LruFreeStep(s: Sim, page: int) returns (r: Sim)
    requires WellFormed(s) && !Resident(s, page) && 0 <= FindFreeFrame(s.frameTable)
    ensures PageFaultHandler(s, "lru", page, 0) == Ok(r)
    ensures var f := FindFreeFrame(s.frameTable);
      && r.nframes == s.nframes
      && r.frameTable == s.frameTable[f := FrameEntry(page, PROT_READ)]
      && r.pageTable == SetEntry(s.pageTable, page, f, PROT_READ)
      && r.pageFaults == s.pageFaults + 1 && r.diskReads == s.diskReads + 1 && r.diskWrites == s.diskWrites
      && r.disk == s.disk + [DiskRead(page)] && r.stack == s.stack + [page]
  {
    assert Dispatch("lru") == Lru;
    r := FreeStep(s, "lru", page, 0);
  }

  /** `FreeStep` under the name "fifo". */
  lemma FifoFreeStep(s: Sim, page: int) returns (r: Sim)
    requires WellFormed(s) && !Resident(s, page) && 0 <= FindFreeFrame(s.frameTable)
    ensures PageFaultHandler(s, "fifo", page, 0) == Ok(r)
    ensures var f := FindFreeFrame(s.frameTable);
      && r.nframes == s.nframes
      && r.frameTable == s.frameTable[f := FrameEntry(page, PROT_READ)]
      && (forall p :: Resident(r, p) <==> Resident(s, p) || p == page)
      && r.pageFaults == s.pageFaults + 1 && r.diskReads == s.diskReads + 1 && r.diskWrites == s.diskWrites
      && r.fifoArray == s.fifoArray[s.end := f] && r.front == s.front && r.end == s.end
  {
    assert Dispatch("fifo") == Fifo;
    r := FreeStep(s, "fifo", page, 0);
  }

  /** One FIFO fault on an unmapped page with no free frame. */
  lemma FifoEvict(s: Sim, page: int) returns (r: Sim)
    requires Inv(s, Fifo) && !Resident(s, page) && FindFreeFrame(s.frameTable) < 0
    ensures 0 <= s.fifoArray[s.front] < s.nframes
    ensures PageFaultHandler(s, "fifo", page, 0) == Ok(r) && Inv(r, Fifo)
    ensures var v := s.fifoArray[s.front];
      var gone := s.frameTable[v];
      && r.frameTable == s.frameTable[v := FrameEntry(page, PROT_READ)]
      && (forall p :: Resident(r, p) <==> p == page || (Resident(s, p) && p != gone.page))
      && r.fifoArray[r.front] == v
      && r.pageFaults == s.pageFaults + 1 && r.diskReads == s.diskReads + 1
      && r.diskWrites == s.diskWrites + (if Writable(gone.bits) then 1 else 0)
  {
    TickKeepsTables(s);
    FifoEvictsHead(Tick(s), page);
    HandlerPreservesInv(s, "fifo", page, 0);
    r := PageFaultHandler(s, "fifo", page, 0).sim;
  }

  /** Pages 1, 2, 3 faulted in turn by reads (`lrand48` unused: 0). */
  const Pages123: seq<(int, nat)> := [(1, 0), (2, 0), (3, 0)]

  /** Three frames, FIFO, pages 1..5 each faulted once (read access),
      whatever the FIFO array holds at start-up. As written the queue head
      stays on the frame loaded last, so pages 4 and 5 both go into frame 2
      and the resident set ends as {1, 2, 5} (not the {3, 4, 5} of a true
      first-in-first-out order). */
  lemma FifoFiveDistinctPages(garbage: seq<int>) returns (s5: Sim)
    requires |garbage| == 3
    ensures Run(Init(3, garbage), "fifo", Pages123 + [(4, 0), (5, 0)]) == Ok(s5)
    ensures FifoAfterFive(s5)
  {
    var s0 := Init(3, garbage);
    var s3 := FifoThreeLoaded(garbage);
    s5 := FifoLastTwo(garbage, s3);
    RunThen(s0, s3, "fifo", Pages123, [(4, 0), (5, 0)]);
  }

  /** After pages 1..5: 1, 2 and 5 resident, 3 and 4 evicted, five reads and no write. */
  ghost predicate FifoAfterFive(s: Sim) {
    && Resident(s, 1) && Resident(s, 2) && Resident(s, 5)
    && !Resident(s, 3) && !Resident(s, 4)
    && s.pageFaults == 5 && s.diskReads == 5 && s.diskWrites == 0
  }

  /** After pages 1, 2, 3: all frames in use, frame 2 holds page 3 and the
      queue head names frame 2. */
  ghost predicate FifoAfterThree(s: Sim) {
    && WellFormed(s) && s.nframes == 3 && s.front == 0 && s.fifoArray[0] == 2
    && s.frameTable[2] == FrameEntry(3, PROT_READ) && FindFreeFrame(s.frameTable) < 0
    && (forall p :: Resident(s, p) <==> p == 1 || p == 2 || p == 3)
    && s.pageFaults == 3 && s.diskReads == 3 && s.diskWrites == 0
  }

  /** Pages 4 and 5 after pages 1, 2, 3: both land in frame 2. */
  lemma FifoLastTwo(garbage: seq<int>, s3: Sim) returns (s5: Sim)
    requires |garbage| == 3 && Run(Init(3, garbage), "fifo", Pages123) == Ok(s3)
    requires FifoAfterThree(s3)
    ensures WellFormed(s3) && Run(s3, "fifo", [(4, 0), (5, 0)]) == Ok(s5)
    ensures FifoAfterFive(s5)
  {
    FifoRunInv(garbage, Pages123);
    var s4 := FifoFourth(s3);
    s5 := FifoFifth(s4);
    assert Run(s3, "fifo", [(4, 0), (5, 0)]) == Run(s4, "fifo", [(5, 0)]);
  }

  /** After page 4: it replaced page 3 in frame 2, which the head still names. */
  ghost predicate FifoAfterFour(s: Sim) {
    && Inv(s, Fifo) && s.fifoArray[s.front] == 2 && FindFreeFrame(s.frameTable) < 0
    && s.frameTable[2] == FrameEntry(4, PROT_READ)
    && (forall p :: Resident(s, p) <==> p == 1 || p == 2 || p == 4)
    && s.pageFaults == 4 && s.diskReads == 4 && s.diskWrites == 0
  }

  lemma FifoFourth(s3: Sim) returns (s4: Sim)
    requires Inv(s3, Fifo) && FifoAfterThree(s3)
    ensures PageFaultHandler(s3, "fifo", 4, 0) == Ok(s4) && FifoAfterFour(s4)
  {
    s4 := FifoEvict(s3, 4);
    assert FindFreeFrame(s4.frameTable) < 0 by {
      NoFreeIffFull(s3.frameTable);
      UsedUpdate(s3.frameTable, 2, FrameEntry(4, PROT_READ));
      NoFreeIffFull(s4.frameTable);
    }
  }

  lemma FifoFifth(s4: Sim) returns (s5: Sim)
    requires FifoAfterFour(s4)
    ensures PageFaultHandler(s4, "fifo", 5, 0) == Ok(s5) && FifoAfterFive(s5)
  {
    s5 := FifoEvict(s4, 5);
  }

  /** Pages 1, 2, 3 read into three FIFO frames, in frame order. */
  lemma FifoThreeLoaded(garbage: seq<int>) returns (s3: Sim)
    requires |garbage| == 3
    ensures Run(Init(3, garbage), "fifo", Pages123) == Ok(s3)
    ensures FifoAfterThree(s3)
  {
    var s0 := Init(3, garbage);
    var s2 := FifoTwoLoaded(garbage);
    s3 := FifoFreeStep(s2, 3);
    assert FindFreeFrame(s3.frameTable) < 0 by {
      assert s3.frameTable[0].bits != 0 && s3.frameTable[1].bits != 0 && s3.frameTable[2].bits != 0;
    }
    assert Run(s0, "fifo", Pages123) == Run(s2, "fifo", [(3, 0)]) by {
      RunThen(s0, s2, "fifo", [(1, 0), (2, 0)], [(3, 0)]);
      assert [(1, 0), (2, 0)] + [(3, 0)] == Pages123;
    }
  }

  /** Every FIFO run from a three-frame start-up keeps the invariant. */
  lemma FifoRunInv(garbage: seq<int>, faults: seq<(int, nat)>)
    requires |garbage| == 3
    ensures Run(Init(3, garbage), "fifo", faults).Ok? && Inv(Run(Init(3, garbage), "fifo", faults).sim, Fifo)
  {
    assert Dispatch("fifo") == Fifo;
    InitInv(3, garbage, Fifo);
    RunPreservesInv(Init(3, garbage), "fifo", faults);
  }

  /** After pages 1 and 2: frame 2 is the first free one. */
  ghost predicate FifoAfterTwo(s: Sim) {
    && WellFormed(s) && s.nframes == 3 && s.front == 0 && s.end == 0
    && s.frameTable[0].bits != 0 && s.frameTable[1].bits != 0 && FindFreeFrame(s.frameTable) == 2
    && (forall p :: Resident(s, p) <==> p == 1 || p == 2)
    && s.pageFaults == 2 && s.diskReads == 2 && s.diskWrites == 0
  }

  /** Pages 1 and 2 read into the first two of three FIFO frames. */
  lemma FifoTwoLoaded(garbage: seq<int>) returns (s2: Sim)
    requires |garbage| == 3
    ensures Run(Init(3, garbage), "fifo", [(1, 0), (2, 0)]) == Ok(s2) && FifoAfterTwo(s2)
  {
    var s0 := Init(3, garbage);
    assert FindFreeFrame(s0.frameTable) == 0 by { assert s0.frameTable[0].bits == 0; }
    var s1 := FifoFreeStep(s0, 1);
    assert FindFreeFrame(s1.frameTable) == 1 by { assert s1.frameTable[1].bits == 0; }
    s2 := FifoFreeStep(s1, 2);
    assert FindFreeFrame(s2.frameTable) == 2 by { assert s2.frameTable[2].bits == 0; }
  }

  /** Three frames, LRU, whatever the unused FIFO array holds at
      start-up: pages 1, 2, 3 read, then page 1 written, then
      page 4 read. The write upgrades page 1 without promoting it, so page
      4 evicts page 1 (written back once, as it is dirty) and the resident
      set ends as {2, 3, 4}; a promoting list would have evicted page 2. */
  lemma LruWriteDoesNotPromote(garbage: seq<int>) returns (s5: Sim)
    requires |garbage| == 3
    ensures Run(Init(3, garbage), "lru", Pages123 + [(1, 0), (4, 0)]) == Ok(s5)
    ensures Resident(s5, 2) && Resident(s5, 3) && Resident(s5, 4) && !Resident(s5, 1)
    ensures s5.stack == [2, 3, 4]
    ensures s5.pageFaults == 5 && s5.diskReads == 4 && s5.diskWrites == 1
    ensures s5.disk == [DiskRead(1), DiskRead(2), DiskRead(3), DiskWrite(1), DiskRead(4)]
  {
    var s0 := Init(3, garbage);
    var s3 := LruThreeLoaded(garbage);
    s5 := LruLastTwo(garbage, s3);
    RunThen(s0, s3, "lru", Pages123, [(1, 0), (4, 0)]);
    assert s3.disk + [DiskWrite(1), DiskRead(4)]
        == [DiskRead(1), DiskRead(2), DiskRead(3), DiskWrite(1), DiskRead(4)];
  }

  /** After pages 1, 2, 3 under LRU: frames in load order, the list 1, 2, 3
      from the bottom, three reads. */
  ghost predicate LruAfterThree(s: Sim) {
    && WellFormed(s) && s.nframes == 3
    && s.frameTable == [FrameEntry(1, PROT_READ), FrameEntry(2, PROT_READ), FrameEntry(3, PROT_READ)]
    && GetEntry(s.pageTable, 1) == PageEntry(0, PROT_READ)
    && |s.stack| == 3 && s.stack[0] == 1 && s.stack[1] == 2 && s.stack[2] == 3
    && s.disk == [DiskRead(1), DiskRead(2), DiskRead(3)]
    && s.pageFaults == 3 && s.diskReads == 3 && s.diskWrites == 0
  }

  /** After the write to page 1: it is writable in frame 0 and still at the bottom. */
  ghost predicate LruAfterWrite(s: Sim) {
    && Inv(s, Lru) && s.nframes == 3
    && |s.stack| == 3 && s.stack[0] == 1 && s.stack[1] == 2 && s.stack[2] == 3
    && GetEntry(s.pageTable, 1) == PageEntry(0, PROT_READ | PROT_WRITE)
    && FindFreeFrame(s.frameTable) < 0
    && s.pageFaults == 4 && s.diskReads == 3 && s.diskWrites == 0
  }

  /** The outcome of the last two faults, relative to the state before them. */
  ghost predicate LruLastTwoOutcome(s3: Sim, s5: Sim) {
    && Resident(s5, 2) && Resident(s5, 3) && Resident(s5, 4) && !Resident(s5, 1)
    && s5.stack == [2, 3, 4]
    && s5.pageFaults == 5 && s5.diskReads == 4 && s5.diskWrites == 1
    && s5.disk == s3.disk + [DiskWrite(1), DiskRead(4)]
  }

  /** The write to page 1 and the read of page 4, after pages 1, 2, 3. */
  lemma LruLastTwo(garbage: seq<int>, s3: Sim) returns (s5: Sim)
    requires |garbage| == 3 && Run(Init(3, garbage), "lru", Pages123) == Ok(s3)
    requires LruAfterThree(s3)
    ensures Run(s3, "lru", [(1, 0), (4, 0)]) == Ok(s5) && LruLastTwoOutcome(s3, s5)
  {
    LruRunInv(garbage, Pages123);
    var s4 := LruOneWritten(s3);
    s5 := LruFourLoaded(s4);
    assert Run(s3, "lru", [(1, 0), (4, 0)]) == Run(s4, "lru", [(4, 0)]);
  }

  /** Pages 1, 2, 3 read into three LRU frames: the list is 1, 2, 3 from the bottom. */
  lemma LruThreeLoaded(garbage: seq<int>) returns (s3: Sim)
    requires |garbage| == 3
    ensures Run(Init(3, garbage), "lru", Pages123) == Ok(s3) && LruAfterThree(s3)
  {
    var s0 := Init(3, garbage);
    var s2 := LruTwoLoaded(garbage);
    assert FindFreeFrame(s2.frameTable) == 2 by { assert s2.frameTable[2].bits == 0; }
    s3 := LruFreeStep(s2, 3);
    assert Run(s0, "lru", Pages123) == Run(s2, "lru", [(3, 0)]) by {
      RunThen(s0, s2, "lru", [(1, 0), (2, 0)], [(3, 0)]);
      assert [(1, 0), (2, 0)] + [(3, 0)] == Pages123;
    }
  }

  /** Every LRU run from a three-frame start-up keeps the invariant. */
  lemma LruRunInv(garbage: seq<int>, faults: seq<(int, nat)>)
    requires |garbage| == 3
    ensures Run(Init(3, garbage), "lru", faults).Ok? && Inv(Run(Init(3, garbage), "lru", faults).sim, Lru)
  {
    assert Dispatch("lru") == Lru;
    InitInv(3, garbage, Lru);
    RunPreservesInv(Init(3, garbage), "lru", faults);
  }

  lemma LruTwoLoaded(garbage: seq<int>) returns (s2: Sim)
    requires |garbage| == 3
    ensures Run(Init(3, garbage), "lru", [(1, 0), (2, 0)]) == Ok(s2)
    ensures WellFormed(s2) && s2.nframes == 3
    ensures s2.frameTable == [FrameEntry(1, PROT_READ), FrameEntry(2, PROT_READ), FrameEntry(0, 0)]
    ensures GetEntry(s2.pageTable, 1) == PageEntry(0, PROT_READ) && !Resident(s2, 3)
    ensures |s2.stack| == 2 && s2.stack[0] == 1 && s2.stack[1] == 2 && s2.disk == [DiskRead(1), DiskRead(2)]
    ensures s2.pageFaults == 2 && s2.diskReads == 2 && s2.diskWrites == 0
  {
    var s0 := Init(3, garbage);
    assert FindFreeFrame(s0.frameTable) == 0 by { assert s0.frameTable[0].bits == 0; }
    var s1 := LruFreeStep(s0, 1);
    assert FindFreeFrame(s1.frameTable) == 1 by { assert s1.frameTable[1].bits == 0; }
    s2 := LruFreeStep(s1, 2);
  }

  /** Then page 1 is written: upgraded in place, the list is unchanged. */
  lemma LruOneWritten(s3: Sim) returns (s4: Sim)
    requires Inv(s3, Lru) && LruAfterThree(s3)
    ensures PageFaultHandler(s3, "lru", 1, 0) == Ok(s4) && LruAfterWrite(s4) && s4.disk == s3.disk
  {
    TickKeepsTables(s3);
    ReadableFaultUpgrades(Lru, Tick(s3), 1, 0);
    HandlerPreservesInv(s3, "lru", 1, 0);
    s4 := PageFaultHandler(s3, "lru", 1, 0).sim;
    assert s4.frameTable == s3.frameTable[0 := FrameEntry(1, PROT_READ | PROT_WRITE)];
  }

  /** Then page 4 is read: the bottom page 1 is written back and evicted. */
  lemma LruFourLoaded(s4: Sim) returns (s5: Sim)
    requires LruAfterWrite(s4)
    ensures PageFaultHandler(s4, "lru", 4, 0) == Ok(s5) && LruLastTwoOutcome(s4, s5)
  {
    var t := TickLru(s4);
    s5 := LruFourEvicts(t);
    assert t.stack[1..] + [4] == [2, 3, 4];
    HandlerIsLru(s4, 4, 0);
  }

  /** `lru_replace` for page 4 on the list 1, 2, 3 with page 1 dirty. */
  lemma LruFourEvicts(t: Sim) returns (r: Sim)
    requires WellFormed(t) && Consistent(t) && LruInv(t) && t.nframes == 3
    requires |t.stack| == 3 && t.stack[0] == 1 && t.stack[1] == 2 && t.stack[2] == 3
    requires Writable(GetEntry(t.pageTable, 1).bits)
    requires FindFreeFrame(t.frameTable) < 0
    ensures LruReplace(t, 4) == Ok(r)
    ensures Resident(r, 2) && Resident(r, 3) && Resident(r, 4) && !Resident(r, 1)
    ensures r.stack == t.stack[1..] + [4] && r.pageFaults == t.pageFaults
    ensures r.diskReads == t.diskReads + 1 && r.diskWrites == t.diskWrites + 1
    ensures r.disk == t.disk + [DiskWrite(1), DiskRead(4)]
  {
    LruFourResidents(t);
    LruEvictsBottom(t, 4);
    r := LruReplace(t, 4).sim;
  }

  lemma LruFourResidents(t: Sim)
    requires WellFormed(t) && Consistent(t) && LruInv(t) && t.nframes == 3
    requires |t.stack| == 3 && t.stack[0] == 1 && t.stack[1] == 2 && t.stack[2] == 3
    requires FindFreeFrame(t.frameTable) < 0
    ensures !Resident(t, 4) && LruReplace(t, 4).Ok?
    ensures var r := LruReplace(t, 4).sim;
      Resident(r, 2) && Resident(r, 3) && Resident(r, 4) && !Resident(r, 1)
  {
    assert !Resident(t, 4) && Resident(t, 2) && Resident(t, 3) by {
      assert 4 !in t.stack;
    }
    LruEvictsBottom(t, 4);
  }

  /** The handler with the name "lru" is `lru_replace` after the tick. */
  lemma HandlerIsLru(s: Sim, page: int, rnd: nat)
    requires WellFormed(s)
    ensures PageFaultHandler(s, "lru", page, rnd) == LruReplace(Tick(s), page)
  {
    assert Dispatch("lru") == Lru;
  }

  /** The fault counter moves and nothing LRU relies on changes. */
  lemma TickLru(s: Sim) returns (t: Sim)
    requires Inv(s, Lru)
    ensures t == Tick(s) && WellFormed(t) && Consistent(t) && LruInv(t) && t.nframes == s.nframes
    ensures t.stack == s.stack && t.pageTable == s.pageTable && t.frameTable == s.frameTable
    ensures t.disk == s.disk && t.pageFaults == s.pageFaults + 1
    ensures t.diskReads == s.diskReads && t.diskWrites == s.diskWrites
  {
    t := Tick(s);
    TickKeepsTables(s);
  }

  /** Two frames, Random, any two distinct pages and any random values:
      the disk reads are issued for blocks 0 and 1, the frame numbers,
      not for the pages. */
  lemma RandomReadsFrameBlocks(p: int, q: int, rp: nat, rq: nat)
    requires p != q
    ensures var r := Run(Init(2, [0, 0]), "rand", [(p, rp), (q, rq)]);
      && r.Ok? && r.sim.disk == [DiskRead(0), DiskRead(1)]
  {
    var s0 := Init(2, [0, 0]);
    assert FindFreeFrame(s0.frameTable) == 0 by { assert s0.frameTable[0].bits == 0; }
    var s1 := FreeStep(s0, "rand", p, rp);
    assert FindFreeFrame(s1.frameTable) == 1 by { assert s1.frameTable[1].bits == 0; }
    assert !Resident(s1, q);
    var s2 := FreeStep(s1, "rand", q, rq);
    assert Run(s0, "rand", [(p, rp), (q, rq)]) == Run(s1, "rand", [(q, rq)]);
  }
}

=== FILE: vm_state.dfy ===
/** The global state shared by the fault handler and the three policies,
    gathered into one immutable record. */
module VmState {
  import opened Prot

  /** One slot of `frameTable`: the page it holds and that page's protection. */
  datatype FrameEntry = FrameEntry(page: int, bits: Bits)

  /** What the page-table adapter stores for a page. */
  datatype PageEntry = PageEntry(frame: int, bits: Bits)

  /** One call into the disk adapter, with the block number it was given. */
  datatype DiskOp = DiskRead(block: int) | DiskWrite(block: int)

  /** The ways a fault can end other than by returning: an explicit
      `exit(1)` after a message, or an operation C leaves undefined. */
  datatype UndefinedBehaviour =
    | FrameOutOfRange     // frameTable indexed outside [0, nframes)
    | NegativeFrameIndex  // LRU reads into and records frame -1 (`index` still holds the failed search)
    | NullDereference     // `drop` follows a NULL list pointer

  datatype Failure = Exit(message: string) | Undefined(cause: UndefinedBehaviour)

  /** Simulation context.
      `stack` is the LRU list with the bottom (least recent) first and the
      top (most recent) last; `disk` is the history of disk-adapter calls. */
  datatype Sim = Sim(
    nframes: int,
    frameTable: seq<FrameEntry>,
    pageTable: map<int, PageEntry>,
    pageFaults: int,
    diskReads: int,
    diskWrites: int,
    fifoArray: seq<int>,
    front: int,
    end: int,
    stack: seq<int>,
    disk: seq<DiskOp>)

  datatype Result = Ok(sim: Sim) | Err(failure: Failure)

  /** `page_table_get_entry`: a page the adapter has never been told about
      is unmapped (frame 0, no protection). */
  function GetEntry(pt: map<int, PageEntry>, page: int): PageEntry {
    if page in pt then pt[page] else PageEntry(0, 0)
  }

  /** `page_table_set_entry`. */
  function SetEntry(pt: map<int, PageEntry>, page: int, frame: int, bits: Bits): (r: map<int, PageEntry>)
    ensures GetEntry(r, page) == PageEntry(frame, bits)
    ensures forall q :: q != page ==> GetEntry(r, q) == GetEntry(pt, q)
  {
    pt[page := PageEntry(frame, bits)]
  }

  /** A page is resident when the page table grants it some access. */
  predicate Resident(s: Sim, page: int) {
    GetEntry(s.pageTable, page).bits != 0
  }

  /** The shape the allocations in `main` give the state. */
  predicate WellFormed(s: Sim) {
    && 1 <= s.nframes
    && |s.frameTable| == s.nframes
    && |s.fifoArray| == s.nframes
    && 0 <= s.front < s.nframes
    && 0 <= s.end < s.nframes
  }

  /** Frame table and page table describe the same residency:
      every occupied frame is what the page table says for its page,
      every resident page is what its frame holds, and only the three
      protections the handler installs ever appear. */
  ghost predicate Consistent(s: Sim) {
    && (forall i :: 0 <= i < |s.frameTable| && s.frameTable[i].bits != 0 ==>
          GetEntry(s.pageTable, s.frameTable[i].page) == PageEntry(i, s.frameTable[i].bits))
    && (forall p :: GetEntry(s.pageTable, p).bits != 0 ==>
          && 0 <= GetEntry(s.pageTable, p).frame < |s.frameTable|
          && s.frameTable[GetEntry(s.pageTable, p).frame] == FrameEntry(p, GetEntry(s.pageTable, p).bits))
    && (forall i :: 0 <= i < |s.frameTable| ==> Installed(s.frameTable[i].bits))
  }

  /** The state before the first fault. `frameTable` and `fifoArray` come
      from `malloc`; the frame table is taken to read as all-free, while
      `fifoArray` holds whatever `garbage` says. */
  function Init(nframes: int, garbage: seq<int>): (s: Sim)
    requires 1 <= nframes && |garbage| == nframes
    ensures WellFormed(s) && Consistent(s)
    ensures forall p :: !Resident(s, p)
    ensures s.pageFaults == s.diskReads == s.diskWrites == 0
  {
    Sim(nframes, seq(nframes, _ => FrameEntry(0, 0)), map[], 0, 0, 0,
        garbage, 0, 0, [], [])
  }
}
